=== FILE: README.md ===
# Weather dashboard core, modelled in Dafny

This project models the core of a small React weather dashboard. The
dashboard has no real back end. A mock weather service answers every city
lookup. It has canned current readings for nine cities. For any other city
it synthesises readings from one of four climate profiles: tropical,
temperate, cold or desert. A city-to-climate index picks the profile, and
temperate is the fallback. Each lookup also gets a fresh five-day forecast
drawn from the same profile.

Around the service sit these parts:
- the display helpers that turn a condition into a weather type, a
  background gradient, an animation class and an icon;
- two string formatters;
- the search box's submit guard;
- the app's state transitions for a lookup and for the refresh button.

Modules, one file each:

- `WeatherTypes` (`types.dfy`): the records of the weather types file.
- `Random` (`random.dfy`): `Math.random()` and the scaled integer draws
  the engine takes from it.
- `Text` (`text.dfy`): the parts of JavaScript's string library that the
  core uses. ASCII `toLowerCase`/`toUpperCase`, `trim`, `includes`, and
  decimal rendering of integers with a parser as its inverse.
- `WeatherService` (`weather_service.dfy`): the climate profiles, the
  city index, the canned readings, forecast synthesis, synthesis for
  unlisted cities, and the lookup facade as intended.
- `WeatherUtils` (`weather_utils.dfy`): weather type, background,
  animation, humidity and capitalisation helpers.
- `WeatherIcon` (`weather_icon.dfy`): the icon chooser.
- `WeatherApp` (`weather_app.dfy`): the default reading, the lookup state
  machine (data, loading, error) and the refresh button.
- `SearchBar` (`search_bar.dfy`): the submit handler and the
  disabled-button predicate.
- `ServiceAsWritten` (`service_as_written.dfy`): the lookup facade as its
  source literally behaves on JavaScript objects (see Findings).

Randomness becomes data. `Math.random()` returns a number in `[0, 1)`. In
current engines it is a multiple of 2^-53 (in V8, of 2^-52), which the
model takes as `k / 2^53` for an integer `k` in `[0, 2^53)`. The model's
draw is that integer `k`, and
`Math.floor(Math.random() * n)` is `k * n / 2^53` rounded down. The caller
supplies one draw per call of `Math.random()` in a `Draws` record, and
`ValidDraws` says only that each draw is in range. It does not depend on
the city, just as in the source. The current date is a day ordinal `today`. A day's weekday
abbreviation is an uninterpreted function `weekday`. A lookup's outcome,
whether it returns a value or throws, is a parameter of the app's state
transition. `SearchWeatherData` and `SearchAsWritten` produce such
outcomes.

Three consequences of the code that a reader might not expect:
- The feels-like offset of a synthesised reading is `floor(random * 6) - 3`,
  which lies in [-3, +2], not in a symmetric range.
  `GenerateRealisticWeatherData` states that range.
- The source overwrites the `forecast` field of the shared canned record
  on every lookup. The model returns a new value instead (see Left out).
- A forecast day's spread is at least 3 and its base temperature is drawn
  below the top of the range, so `minTemp < maxTemp` holds strictly.
  `ForecastEntry` states the strict form.

## Model

| member | source | states |
|---|---|---|
| Random.Pick | src/services/weatherService.ts:138-140 | `Math.floor(Math.random() * n)` lies in `[0, n)` for every result of `Math.random()` |
| Random.PickReaches | src/services/weatherService.ts:138-140 | every value of `[0, n)` is produced by some result of `Math.random()`, so the range of a draw is exactly `[0, n)` |
| WeatherService.Within | src/services/weatherService.ts:139 | a draw scaled into a profile range and offset by its low end lies in the half-open range `[lo, hi)` |
| WeatherService.WithinReaches | src/services/weatherService.ts:139 | every value of a profile range can be drawn |
| WeatherService.ClimateData | src/services/weatherService.ts:4-62 | every climate profile has non-empty temperature, humidity and wind ranges and at least one condition to draw |
| WeatherService.NormalizeCity | src/services/weatherService.ts:282 | the lookup key: the name lower-cased and trimmed; its properties are stated by `NormalizeIdempotent` and `ClassifyIgnoresCaseAndPadding` |
| WeatherService.NormalizeIdempotent | src/services/weatherService.ts:282 | a key is already in normal form: normalising it again changes nothing |
| WeatherService.ClimateOfKey | src/services/weatherService.ts:300 | the index's own entry for the key, or temperate when it has none; `CityGroupsDisjoint` shows the group order is irrelevant |
| WeatherService.ClassifyCity | src/services/weatherService.ts:297-300 | the climate of a name as typed: its key looked up by `ClimateOfKey`; examples in `ChennaiIsTropical` and `AtlantisIsTemperate` |
| WeatherService.ClassifyIgnoresCaseAndPadding | src/services/weatherService.ts:297-300 | a city name padded with whitespace, or lower-cased, is classified into the same climate as the name itself |
| WeatherService.NormalizeLowerUnpadded | src/services/weatherService.ts:282 | a name without upper-case letters and without surrounding whitespace is already its own lookup key |
| WeatherService.ChennaiIsTropical | src/services/weatherService.ts:65-67 | "chennai", "Chennai" and " CHENNAI " all classify as tropical |
| WeatherService.UnindexedIsTemperate | src/services/weatherService.ts:300 | any key missing from the index falls back to the temperate climate |
| WeatherService.AtlantisIsTemperate | src/services/weatherService.ts:300 | the documented example: "Atlantis" is in no group and classifies as temperate |
| WeatherService.CityGroupsDisjoint | src/services/weatherService.ts:65-127 | no city is listed under two climates, so the index is a function and the order the groups are consulted in does not matter |
| WeatherService.ForecastEntry | src/services/weatherService.ts:135-150 | one forecast day has date today+i, is labelled "Today" at i = 0 and with the weekday of today+i after that, draws its condition from the climate's pool, has a spread of 3 to 10 degrees around the base temperature, each end equal to base ∓ spread unless clamped to the climate's range edge, with min strictly below max, and has humidity and wind inside the climate's ranges |
| WeatherService.GenerateForecastForToday | src/services/weatherService.ts:129-154 | exactly five days starting today; day 0 is labelled "Today" and day i >= 1 gets the weekday label of today+i; every day lies within the climate's envelope; day i is the forecast entry drawn with the i-th draws, so its low and high are at most 20 degrees apart |
| WeatherService.ForecastDaysInOrder | src/services/weatherService.ts:134-144 | dates advance by exactly one day, and "Today" labels the first day and no other, as long as no weekday label reads "Today" |
| WeatherService.CannedCitiesClassified | src/services/weatherService.ts:157-275 | `CannedCurrent` holds the nine canned readings; every canned city is in the index, under the same climate its load-time forecast used, so a refreshed forecast keeps the city's climate |
| WeatherService.GenerateRealisticWeatherData | src/services/weatherService.ts:296-321 | an unlisted city's reading keeps the name as typed; condition, temperature, humidity and wind come from its climate; feels-like is 3 below to 2 above the temperature; visibility is 5..19 km and pressure 990..1039 hPa whatever the climate; the forecast is the generated one for the same climate |
| WeatherService.SearchWeatherData | src/services/weatherService.ts:278-294 | every lookup yields data. A canned city yields its canned current reading; any other city yields exactly the reading synthesised for it, located at the input as typed; either way the forecast is regenerated from the city's climate |
| WeatherService.CannedLookupStable | src/services/weatherService.ts:283-289 | two lookups of a canned city agree on the current reading whatever the draws, and the climate used is the one the canned entry was built with |
| WeatherUtils.GetWeatherType | src/utils/weatherUtils.ts:3-22 | for each of the seven weather types, the exact set of lower-cased category labels (and, for sunny, descriptions) that produce it; everything unrecognised, and "clear" without "clear" in its description, is the fallback type |
| WeatherUtils.WeatherTypeIgnoresCase | src/utils/weatherUtils.ts:4-5 | the type depends on the category label and description only up to ASCII case; the id and icon code play no part |
| WeatherUtils.GetBackgroundClasses | src/utils/weatherUtils.ts:24-43 | an independent decoder reads the weather type back from its gradient, so the table loses no information |
| WeatherUtils.BackgroundsDistinct | src/utils/weatherUtils.ts:24-43 | different weather types get different gradients, and only the clear type shares the switch's default gradient |
| WeatherUtils.GetWeatherAnimation | src/utils/weatherUtils.ts:61-72 | the animation class of each weather type; its cases are stated by `AnimationCases` and tied to the icon by `WeatherIcon.AnimationMatchesIcon` |
| WeatherUtils.AnimationCases | src/utils/weatherUtils.ts:61-72 | rain and thunderstorms pulse, snow bounces, every other type is still, in both directions |
| WeatherIcon.AnimationMatchesIcon | src/utils/weatherUtils.ts:61-72 | a condition pulses exactly when its icon shows rain or lightning, bounces exactly when it shows snow, and is still for every other icon |
| WeatherUtils.FormatHumidity | src/utils/weatherUtils.ts:53-55 | for a humidity of magnitude at most 2^53, the text ends in a percent sign; what precedes it is a canonical decimal numeral (no leading zero, no sign on zero) that parses back to the humidity, negative values included |
| WeatherUtils.FormatHumidityDetermined | src/utils/weatherUtils.ts:53-55 | any string made of a canonical numeral of the humidity and a percent sign is the formatted humidity, so the contract fixes the text exactly |
| WeatherUtils.CapitalizeFirst | src/utils/weatherUtils.ts:57-59 | length and every character after the first are kept; the first character is no longer lower case and names the same letter ignoring case |
| WeatherUtils.CapitalizeFirstIdempotent | src/utils/weatherUtils.ts:57-59 | capitalising twice is the same as capitalising once |
| WeatherIcon.GetIcon | src/components/WeatherIcon.tsx:25-51 | for each of the eight icons, the exact conditions that choose it: the moon only for a clear night code, the partly-sunny cloud for "few"/"scattered" clouds by day and night, the sun also for unrecognised labels |
| WeatherIcon.IconAgreesWithType | src/components/WeatherIcon.tsx:29-49 | the icon and the weather type agree in both directions: rain, snow, storm and fog match one to one, cloudy means a cloud glyph, and sunny or clear means a sun or moon |
| WeatherApp.DefaultWeatherShape | src/components/WeatherApp.tsx:11-69 | `DefaultWeather`, the reading shown before any search, carries DEFAULT_WEATHER's values and has five consecutive days, only the first labelled "Today", each with its low at most its high |
| WeatherApp.StartFetch | src/components/WeatherApp.tsx:79-80 | entering a lookup sets loading, clears the error and keeps the reading |
| WeatherApp.SettleFetch | src/components/WeatherApp.tsx:83-103 | leaving a lookup always clears loading; data replaces the reading; a null result becomes "City not found"; anything thrown sets the error to an Error's message or the fixed fallback text, and keeps the previous reading in state |
| WeatherApp.FetchWeatherData | src/components/WeatherApp.tsx:76-104 | a blank name changes nothing; otherwise loading ends, the error is cleared exactly when the lookup produced data, and the reading is replaced by that data or else kept |
| WeatherApp.SearchAlwaysShowsWeather | src/components/WeatherApp.tsx:82-85 | with the corrected lookup (`WeatherService.SearchWeatherData`, see Findings), a search for any non-blank name shows a five-day reading and never an error |
| WeatherApp.RefreshName | src/components/WeatherApp.tsx:107-108 | the refresh name is the prefix of the location before its first comma, the whole location when it has no comma |
| WeatherApp.HandleRefresh | src/components/WeatherApp.tsx:106-110 | refreshing searches again for the city part of the displayed location: a blank city part changes nothing; otherwise loading ends, the error is cleared exactly when the lookup produced data, data replaces the reading, and a failure keeps the reading |
| WeatherApp.RefreshFindsCannedCity | src/components/WeatherApp.tsx:106-110 | the city part of every canned display name normalises back to the canned key it came from |
| WeatherApp.CannedSearchShowsReading | src/components/WeatherApp.tsx:83-85 | a search whose name normalises to a canned key shows that key's canned reading, with no error |
| WeatherApp.RefreshKeepsCannedReading | src/components/WeatherApp.tsx:106-110 | refreshing while a canned city is shown brings back the same canned current reading, with no error |
| WeatherApp.GeneratedConditionsAreDaytime | src/services/weatherService.ts:4-62 | every condition a climate can generate has a daytime icon code, so generated weather never shows the moon |
| WeatherApp.PoolTypeExamples | src/utils/weatherUtils.ts:7-21 | a clear sky is sunny with a sun icon, while the desert's dust condition is not a recognised category and falls through to the clear type |
| SearchBar.HandleSubmit | src/components/SearchBar.tsx:16-21 | a submit passes a name on exactly when the query is not blank and no lookup is running, and the name passed on is the trimmed query |
| SearchBar.SubmitDisabled | src/components/SearchBar.tsx:56 | the submit button's disabled state: a blank query or a running lookup; `DisabledExactlyWhenRejected` ties it to the handler |
| SearchBar.DisabledExactlyWhenRejected | src/components/SearchBar.tsx:56 | the submit button is disabled exactly when pressing it would pass nothing on |
| SearchBar.SubmittedCityIsTrimmed | src/components/SearchBar.tsx:18-19 | a submitted name has no surrounding whitespace, is its own trim, passes the app's blank check, and has the same lookup key as the query as typed |
| Text.TrimIgnoresPadding | src/services/weatherService.ts:282 | trimming removes any whitespace padding on either side, so padded and unpadded names give the same key |
| Text.TrimIdempotent | src/components/SearchBar.tsx:19 | trimming an already trimmed text changes nothing |
| Text.LowerTrimCommute | src/services/weatherService.ts:282 | lower-casing and trimming can be applied in either order |
| Text.ContainsIffOccurs | src/utils/weatherUtils.ts:7 | the substring test holds exactly when the part occurs at some position of the text |
| Text.IntToStringRoundTrip | src/utils/weatherUtils.ts:54 | the decimal rendering of an integer is a numeral that parses back to it |
| Text.CanonicalNumeralUnique | src/utils/weatherUtils.ts:54 | two canonical numerals with the same value are the same string, so each integer has one rendering |
| ServiceAsWritten.SearchAsWritten | src/services/weatherService.ts:282-301 | the lookup as written throws exactly when the climate index yields no profile for the key, or the canned table yields an inherited member |
| ServiceAsWritten.InheritedKeySlots | src/services/weatherService.ts:283-301 | a key that names an inherited object member misses both tables' own entries yet is found as inherited, so the climate fallback never applies and no profile is found |
| ServiceAsWritten.InheritedRecordNeverReturned | src/services/weatherService.ts:283-288 | whenever the canned table answers with an inherited member, the profile lookup fails too, so such a record is never returned |
| ServiceAsWritten.InheritedNameThrows | src/services/weatherService.ts:287-288 | a search whose key is an inherited member name throws a TypeError, and the app shows its message and keeps the previous reading in state |
| ServiceAsWritten.InheritedNameFallsBack | src/services/weatherService.ts:292-300 | for the same names, the intended lookup classifies as temperate and shows a reading for the name as typed, with no error |
| ServiceAsWritten.AsWrittenAgreesOffPrototype | src/services/weatherService.ts:278-294 | for every key that is not an inherited member name, the lookup as written and the intended lookup give the same result |
| ServiceAsWritten.ConstructorSearchThrows | src/services/weatherService.ts:283-288 | searching for "Constructor" throws, and the app shows the TypeError's message while keeping the previous reading in state |
| ServiceAsWritten.ConstructorSearchFallsBack | src/services/weatherService.ts:292-300 | the intended lookup shows a temperate reading located at "Constructor", with no error |

## Left out

- The 800 ms simulated delay, and the asynchronous plumbing around it, are not modelled. A lookup is one step from its start to its outcome. Overlapping lookups, and a stale lookup finishing after a newer one, are therefore not modelled either.
- Random.Pick computes `k * n / 2^53` exactly, but the source multiplies doubles. Rounding the product can raise the floored result by one at a few draws just below an integer boundary: for n = 50, k = 7205759403792793 gives 39 here and 40 in doubles. It happens for every table size that is not a power of two. The rounded product stays below n, so every range the model states still holds. Only which draw gives which value differs, and `PickReaches` describes the exact product.
- The order in which the source calls `Math.random()` is not modelled. Each call has its own named field in the draws record.
- `new Date()`, `setDate`, `toISOString` and the locale weekday name are left out. Dates are day ordinals, and weekday labels come from a parameter. The mixing of local time with UTC in `toISOString` is not modelled.
- `formatTemperature` and `formatWindSpeed` are left out, because they round floating-point values with `Math.round` and print a degree sign.
- `Text`'s case mapping and `trim` cover ASCII letters and six whitespace characters: space, tab, line feed, carriage return, vertical tab and form feed. JavaScript also maps non-ASCII letters and trims Unicode spaces and line terminators.
- `SearchWeatherData` returns a new value. The source overwrites the `forecast` field of the shared canned record and returns that same object, so later readers see the change. Aliasing and mutation are not modelled. The forecasts that the canned records are built with at load time are replaced on every lookup and are not modelled either.
- ServiceAsWritten.ReadUndefinedMessage is the wording V8 gives the TypeError. Other engines word it differently. `InheritedNameThrows` and `ConstructorSearchThrows` hold for any wording once this constant is changed.
- WeatherUtils.FormatHumidity requires a magnitude of at most 2^53. Beyond it, JavaScript prints the shortest digits that read back to the same double, or exponent form from 10^21, and the model does not follow it there. Every humidity the program produces lies in 20..90. Text.IntToString is the exact decimal for every integer and stands for `${i}` only within that bound.
- The toast notifications and all React rendering are left out: motion, layout, the loading spinner and the icon sizes.
- The presentation components that only display the model's values are left out: CurrentWeather, ForecastCard, ForecastSection and App.
- WeatherService.ClimateOfKey consults the four city groups in a fixed order, where the source looks the name up in one table. `CityGroupsDisjoint` shows the order does not matter.
- The search box's `query` state and its focus styling are left out. `HandleSubmit` takes the query as an argument.

## Findings

| source | as written | input that shows it | evidently intended | confidence | as-written member | corrected member |
|---|---|---|---|---|---|---|
| src/services/weatherService.ts:283-301 | `mockWeatherData[key]` and `cityClimateMap[key]` index plain object literals, so they also find members inherited from `Object.prototype`. Those members are truthy, so `\|\| 'temperate'` never applies. `climateData[climate]` is then undefined, and reading `.commonConditions` throws a TypeError. The app shows that message in place of the reading, and keeps the old reading in state. | the search "Constructor", whose normal form is "constructor" (also "__proto__") | an unlisted name falls back to the temperate climate and gets a synthesised reading located at the name as typed | not executed; high, since the lookup semantics of JavaScript object literals are standard | ServiceAsWritten.ConstructorSearchThrows | ServiceAsWritten.ConstructorSearchFallsBack |

`WeatherService.SearchWeatherData` is the corrected definition: it looks up only the tables' own entries. The rest of the model uses it. `ServiceAsWritten.AsWrittenAgreesOffPrototype` shows that the two definitions differ only on inherited member names.

=== FILE: random.dfy ===
/**
  The engine's source of randomness. `Math.random()` returns a number in
  `[0, 1)`; in current engines it is a multiple of 2^-53 (in V8, of
  2^-52), which the model takes as `k / 2^53` for an integer `k` in
  `[0, 2^53)`. The model's draw is that integer, and
  `Math.floor(Math.random() * n)` is the draw scaled down to `[0, n)`.
 */
module Random {

  /** 2^53, the number of draws the model distinguishes. */
  const RandomScale := 0x20_0000_0000_0000

  predicate IsRandom(k: int) {
    0 <= k < RandomScale
  }

  /** `Math.floor(Math.random() * n)` for the draw `k`. */
  function Pick(k: int, n: int): (r: int)
    requires IsRandom(k) && n > 0
    ensures 0 <= r < n
  {
    PickInRange(k, n);
    k * n / RandomScale
  }

  lemma PickInRange(k: int, n: int)
    requires IsRandom(k) && n > 0
    ensures 0 <= k * n / RandomScale < n
  {
    assert k * n < RandomScale * n by {
      assert (RandomScale - k) * n > 0;
    }
  }

  /** Every value of `[0, n)` is drawn by some `Math.random()` result, so
      `Pick` has exactly `[0, n)` as its range. */
  lemma PickReaches(j: int, n: int) returns (k: int)
    requires 0 <= j < n <= RandomScale
    ensures IsRandom(k) && Pick(k, n) == j
  {
    k := (j * RandomScale + n - 1) / n;
    assert j * RandomScale <= k * n < j * RandomScale + RandomScale;
    DivUnique(k * n, RandomScale, j);
  }

  /** The quotient is the one multiple of `d` below `a` within `d`. */
  lemma DivUnique(a: int, d: int, q: int)
    requires d > 0 && q * d <= a < q * d + d
    ensures a / d == q
  {
    var q', r := a / d, a % d;
    assert a == q' * d + r && 0 <= r < d;
    assert (q' - q) * d == a - r - q * d;
    if q' > q {
      MulAtLeast(q' - q, d);
    } else if q' < q {
      MulAtLeast(q - q', d);
    }
  }

  lemma MulAtLeast(x: int, d: int)
    requires x >= 1 && d > 0
    ensures x * d >= d
  {
    assert (x - 1) * d >= 0;
  }
}

=== FILE: search_bar.dfy ===
/**
  The search box: when a submit reaches the app, what text it carries, and
  when the submit button is greyed out.
 */
module SearchBar {

  import opened WeatherTypes
  import opened Text
  import opened WeatherService

  /** The form's submit handler: the trimmed query is passed on only when
      it is not blank and no lookup is in flight; `None` means nothing is
      passed on. */
  function HandleSubmit(query: string, loading: bool): (r: Option<string>)
    ensures r.Some? <==> !IsBlank(query) && !loading
    ensures r.Some? ==> r.value == Trim(query)
  {
    if !IsBlank(query) && !loading then Some(Trim(query)) else None
  }

  /** `disabled={!query.trim() || loading}` on the submit button. */
  predicate SubmitDisabled(query: string, loading: bool) {
    IsBlank(query) || loading
  }

  /** The button is greyed out exactly when pressing it would do nothing. */
  lemma DisabledExactlyWhenRejected(query: string, loading: bool)
    ensures SubmitDisabled(query, loading) <==> HandleSubmit(query, loading).None?
  {
  }

  /** What the app receives is already trimmed, so it passes the app's own
      blank check, and normalising it gives the same key as normalising the
      query as typed. */
  lemma SubmittedCityIsTrimmed(query: string, loading: bool)
    requires HandleSubmit(query, loading).Some?
    ensures var city := HandleSubmit(query, loading).value;
      && |city| > 0 && !IsSpace(city[0]) && !IsSpace(city[|city| - 1])
      && Trim(city) == city
      && !IsBlank(city)
      && NormalizeCity(city) == NormalizeCity(query)
  {
    var city := Trim(query);
    TrimIdempotent(query);
    LowerTrimCommute(query);
    TrimIdempotent(Lower(query));
  }
}

=== FILE: service_as_written.dfy ===
/**
  The lookup facade as its source writes it, where the canned table and
  the city-to-climate index are plain object literals. Reading
  `object[key]` from such an object also finds the members every object
  inherits from `Object.prototype`. Two of those names survive
  normalisation ("constructor" and "__proto__"); for them both tables
  return an inherited member, which is truthy, so the climate fallback
  never applies, `climateData[climate]` is undefined, and reading its
  condition pool throws a TypeError. `WeatherService.SearchWeatherData`
  is the intended behaviour, with own keys only.
 */
module ServiceAsWritten {

  import opened WeatherTypes
  import opened Text
  import opened WeatherService
  import opened WeatherApp

  /** The members a plain object inherits from `Object.prototype`. */
  const ObjectPrototypeNames: set<string> := {
    "constructor", "__proto__", "hasOwnProperty", "isPrototypeOf",
    "propertyIsEnumerable", "toLocaleString", "toString", "valueOf",
    "__defineGetter__", "__defineSetter__", "__lookupGetter__", "__lookupSetter__"}

  /** What `object[key]` finds: an own entry, an inherited member, or nothing. */
  datatype Slot<T> = Own(value: T) | Inherited | Missing

  function CannedSlot(key: string): Slot<CurrentWeather> {
    if key in CannedCurrent then Own(CannedCurrent[key])
    else if key in ObjectPrototypeNames then Inherited
    else Missing
  }

  /** `cityClimateMap[key] || 'temperate'`: only a missing entry falls back. */
  function ClimateSlot(key: string): Slot<Climate> {
    if key in IndexedCities() then Own(ClimateOfKey(key))
    else if key in ObjectPrototypeNames then Inherited
    else Own(Temperate)
  }

  /** `climateData[climate]`: undefined for anything but a climate name. */
  function ClimateInfo(climate: Slot<Climate>): Option<ClimateProfile> {
    match climate
    case Own(c) => Some(ClimateData(c))
    case _ => None
  }

  /** The TypeError V8 raises on `undefined.commonConditions`. */
  const ReadUndefinedMessage := "Cannot read properties of undefined (reading 'commonConditions')"

  /** `searchWeatherData` as written. Both branches read the condition pool
      of `climateData[climate]` before returning, so an undefined profile
      throws in either. */
  function SearchAsWritten(city: string, today: int, weekday: int -> string, draws: Draws): (r: Outcome)
    requires ValidDraws(draws)
    ensures r.Threw? <==> ClimateInfo(ClimateSlot(NormalizeCity(city))).None? || CannedSlot(NormalizeCity(city)).Inherited?
  {
    var key := NormalizeCity(city);
    match ClimateInfo(ClimateSlot(key))
    case None => Threw(ErrorObject(ReadUndefinedMessage))
    case Some(_) =>
      match CannedSlot(key)
      case Own(current) =>
        Returned(Some(WeatherData(current, GenerateForecastForToday(ClimateOfKey(key), today, weekday, draws.forecast))))
      case Inherited => Threw(ErrorObject(ReadUndefinedMessage))
      case Missing => Returned(Some(GenerateRealisticWeatherData(city, today, weekday, draws)))
  }

  /** No inherited member name is a city of the index. */
  lemma PrototypeNamesUnindexed(key: string)
    requires key in ObjectPrototypeNames
    ensures key !in TropicalCities && key !in TemperateCities
    ensures key !in ColdCities && key !in DesertCities
  {
    PrototypeNamesNotTropical(key);
    PrototypeNamesNotTemperate(key);
    PrototypeNamesNotColdOrDesert(key);
  }

  lemma PrototypeNamesNotTropical(key: string)
    requires key in ObjectPrototypeNames
    ensures key !in TropicalCities
  {
  }

  lemma PrototypeNamesNotTemperate(key: string)
    requires key in ObjectPrototypeNames
    ensures key !in TemperateCities
  {
  }

  lemma PrototypeNamesNotColdOrDesert(key: string)
    requires key in ObjectPrototypeNames
    ensures key !in ColdCities && key !in DesertCities
  {
  }

  /** No inherited member name is a canned city either, since every canned
      city is indexed. */
  lemma PrototypeNamesUncanned(key: string)
    requires key in ObjectPrototypeNames
    ensures key !in CannedCurrent
  {
    PrototypeNamesUnindexed(key);
    CannedCitiesClassified();
  }

  /** Every inherited name reads as an inherited member from both tables:
      the index misses it, so the fallback never applies and `climateData`
      yields no profile; the intended lookup classifies the key as
      temperate and generates a reading for it. */
  lemma InheritedKeySlots(key: string)
    requires key in ObjectPrototypeNames
    ensures ClimateSlot(key) == Inherited && ClimateInfo(ClimateSlot(key)) == None
    ensures CannedSlot(key) == Inherited && key !in CannedCurrent
    ensures ClimateOfKey(key) == Temperate
  {
    PrototypeNamesUnindexed(key);
    PrototypeNamesUncanned(key);
  }

  /** Where the canned table finds an inherited member, so does the
      index, and the profile read throws: the `Inherited` branch of the
      canned lookup never returns a value. */
  lemma InheritedRecordNeverReturned(key: string)
    requires CannedSlot(key).Inherited?
    ensures ClimateInfo(ClimateSlot(key)).None?
  {
    InheritedKeySlots(key);
  }

  /** A search whose normal form is an inherited name throws, and the app
      shows the TypeError's message while keeping the previous reading in
      state. */
  lemma InheritedNameThrows(s: AppState, city: string, today: int, weekday: int -> string, draws: Draws)
    requires NormalizeCity(city) in ObjectPrototypeNames
    requires ValidDraws(draws)
    ensures ClassifyCity(city) == Temperate
    ensures SearchAsWritten(city, today, weekday, draws) == Threw(ErrorObject(ReadUndefinedMessage))
    ensures !IsBlank(city) ==>
      var t := FetchWeatherData(s, city, SearchAsWritten(city, today, weekday, draws));
      t.error == Some(ReadUndefinedMessage) && t.weatherData == s.weatherData
  {
    InheritedKeySlots(NormalizeCity(city));
  }

  /** For the same names, the intended lookup shows a generated temperate
      reading under the name as typed, with no error. */
  lemma InheritedNameFallsBack(s: AppState, city: string, today: int, weekday: int -> string, draws: Draws)
    requires NormalizeCity(city) in ObjectPrototypeNames
    requires ValidDraws(draws)
    ensures ClassifyCity(city) == Temperate
    ensures var r := SearchWeatherData(city, today, weekday, draws);
      && r.Some? && r.value.current.location == city
      && (!IsBlank(city) ==>
            var t := FetchWeatherData(s, city, Returned(r));
            t.error == None && t.weatherData == r.value)
  {
    InheritedKeySlots(NormalizeCity(city));
  }

  /** Off the inherited names, the source behaves as intended. */
  lemma AsWrittenAgreesOffPrototype(city: string, today: int, weekday: int -> string, draws: Draws)
    requires ValidDraws(draws)
    requires NormalizeCity(city) !in ObjectPrototypeNames
    ensures SearchAsWritten(city, today, weekday, draws) == Returned(SearchWeatherData(city, today, weekday, draws))
  {
    var key := NormalizeCity(city);
    if key in CannedCurrent {
      CannedKeySlots(key);
    } else {
      UncannedKeySlots(key);
    }
    AsWrittenAgreesOnOwnSlots(city, today, weekday, draws);
  }

  /** A canned city is always found as an own entry of both tables. */
  lemma CannedKeySlots(key: string)
    requires key in CannedCurrent
    ensures ClimateSlot(key) == Own(ClimateOfKey(key))
    ensures CannedSlot(key) == Own(CannedCurrent[key])
  {
    CannedCitiesClassified();
  }

  /** Off the inherited names, an uncanned key misses the canned table and
      is classified by the index with its fallback, as intended. */
  lemma UncannedKeySlots(key: string)
    requires key !in ObjectPrototypeNames && key !in CannedCurrent
    ensures ClimateSlot(key) == Own(ClimateOfKey(key))
    ensures CannedSlot(key) == Missing
  {
  }

  /** Where both tables hold own entries or nothing, the as-written search
      is the intended one. */
  lemma AsWrittenAgreesOnOwnSlots(city: string, today: int, weekday: int -> string, draws: Draws)
    requires ValidDraws(draws)
    requires ClimateSlot(NormalizeCity(city)) == Own(ClassifyCity(city))
    requires CannedSlot(NormalizeCity(city)) == (if NormalizeCity(city) in CannedCurrent then Own(CannedCurrent[NormalizeCity(city)]) else Missing)
    ensures SearchAsWritten(city, today, weekday, draws) == Returned(SearchWeatherData(city, today, weekday, draws))
  {
  }

  lemma ConstructorNormalForm()
    ensures NormalizeCity("Constructor") == "constructor"
  {
    assert Lower("Constructor") == "constructor";
    TrimUnpadded("constructor");
  }

  lemma ConstructorNotBlank()
    ensures !IsBlank("Constructor")
  {
    assert !IsSpace("Constructor"[0]);
  }

  /** Searching for "Constructor" throws in the source, and the app shows
      the TypeError's message while keeping the previous reading in
      state. */
  lemma ConstructorSearchThrows(s: AppState, today: int, weekday: int -> string, draws: Draws)
    requires ValidDraws(draws)
    ensures ClassifyCity("Constructor") == Temperate
    ensures SearchAsWritten("Constructor", today, weekday, draws) == Threw(ErrorObject(ReadUndefinedMessage))
    ensures var t := FetchWeatherData(s, "Constructor", SearchAsWritten("Constructor", today, weekday, draws));
      t.error == Some(ReadUndefinedMessage) && t.weatherData == s.weatherData
  {
    ConstructorNormalForm();
    ConstructorNotBlank();
    InheritedNameThrows(s, "Constructor", today, weekday, draws);
  }

  /** The intended lookup falls back to the temperate climate for
      "Constructor", and the app shows a reading for it with no error. */
  lemma ConstructorSearchFallsBack(s: AppState, today: int, weekday: int -> string, draws: Draws)
    requires ValidDraws(draws)
    ensures ClassifyCity("Constructor") == Temperate
    ensures var r := SearchWeatherData("Constructor", today, weekday, draws);
      && r.Some? && r.value.current.location == "Constructor"
      && var t := FetchWeatherData(s, "Constructor", Returned(r));
         t.error == None && t.weatherData == r.value
  {
    ConstructorNormalForm();
    ConstructorNotBlank();
    InheritedNameFallsBack(s, "Constructor", today, weekday, draws);
  }
}

=== FILE: text.dfy ===
/**
  The JavaScript string built-ins the dashboard relies on, restricted to
  ASCII: `toLowerCase`, `toUpperCase` of one character, `trim`,
  `includes`, and the decimal rendering of an integer.
 */
module Text {

  /** The ASCII characters `trim` removes: space, tab, line feed,
      carriage return, vertical tab and form feed. */
  predicate IsSpace(c: char) {
    c == ' ' || c == '\t' || c == '\n' || c == '\r' || c == '\U{B}' || c == '\U{C}'
  }

  predicate AllSpace(s: string) {
    forall i :: 0 <= i < |s| ==> IsSpace(s[i])
  }

  predicate IsUpper(c: char) { 'A' <= c <= 'Z' }

  predicate IsLower(c: char) { 'a' <= c <= 'z' }

  function LowerChar(c: char): (r: char)
    ensures !IsUpper(r)
    ensures IsSpace(r) <==> IsSpace(c)
  {
    if IsUpper(c) then (c as int + 32) as char else c
  }

  function UpperChar(c: char): (r: char)
    ensures !IsLower(r)
    ensures LowerChar(r) == LowerChar(c)
  {
    if IsLower(c) then (c as int - 32) as char else c
  }

  /** `s.toLowerCase()` on ASCII text. */
  function Lower(s: string): (r: string)
    ensures |r| == |s|
    ensures forall i :: 0 <= i < |s| ==> r[i] == LowerChar(s[i])
  {
    seq(|s|, i requires 0 <= i < |s| => LowerChar(s[i]))
  }

  lemma LowerAppend(a: string, b: string)
    ensures Lower(a + b) == Lower(a) + Lower(b)
  {
    assert forall i :: 0 <= i < |a + b| ==> Lower(a + b)[i] == (Lower(a) + Lower(b))[i];
  }

  lemma LowerIdempotent(s: string)
    ensures Lower(Lower(s)) == Lower(s)
  {
  }

  lemma LowerKeepsSpace(s: string)
    requires AllSpace(s)
    ensures Lower(s) == s
  {
  }

  /** `s.trimStart()`: the suffix of `s` left after dropping leading spaces. */
  function TrimStart(s: string): (r: string)
    ensures |r| <= |s| && s == s[..|s| - |r|] + r
    ensures |r| > 0 ==> !IsSpace(r[0])
    ensures AllSpace(s[..|s| - |r|])
  {
    if |s| > 0 && IsSpace(s[0]) then TrimStart(s[1..]) else s
  }

  /** `s.trimEnd()`: the prefix of `s` left after dropping trailing spaces. */
  function TrimEnd(s: string): (r: string)
    ensures |r| <= |s| && s == r + s[|r|..]
    ensures |r| > 0 ==> !IsSpace(r[|r| - 1])
    ensures AllSpace(s[|r|..])
  {
    if |s| > 0 && IsSpace(s[|s| - 1]) then TrimEnd(s[..|s| - 1]) else s
  }

  /** `s.trim()`: neither end of the result is a space. */
  function Trim(s: string): (r: string)
    ensures |r| > 0 ==> !IsSpace(r[0]) && !IsSpace(r[|r| - 1])
    ensures |r| == 0 <==> AllSpace(s)
  {
    var t := TrimStart(s);
    var r := TrimEnd(t);
    assert s == s[..|s| - |t|] + t;
    assert t[0..] == t;
    r
  }

  /** A string the source's `!s.trim()` test treats as empty. */
  predicate IsBlank(s: string) {
    Trim(s) == ""
  }

  /** Trimming removes only a run of spaces on either side: `s` is the
      trimmed text with a space-only prefix and suffix put back. */
  lemma TrimSplits(s: string) returns (pre: string, post: string)
    ensures s == pre + Trim(s) + post
    ensures AllSpace(pre) && AllSpace(post)
  {
    var t := TrimStart(s);
    var r := TrimEnd(t);
    assert Trim(s) == r;
    pre := s[..|s| - |t|];
    post := t[|r|..];
    assert t == r + post by { assert r == t[..|r|]; }
    assert s == pre + t by { assert t == s[|s| - |t|..]; }
    assert s == pre + r + post by { assert pre + (r + post) == pre + r + post; }
  }

  /** A text that neither starts nor ends with a space is its own trim. */
  lemma TrimUnpadded(s: string)
    requires |s| > 0 && !IsSpace(s[0]) && !IsSpace(s[|s| - 1])
    ensures Trim(s) == s
  {
  }

  lemma TrimIdempotent(s: string)
    ensures Trim(Trim(s)) == Trim(s)
  {
  }

  lemma {:induction false} TrimStartAfterSpaces(pre: string, s: string)
    requires AllSpace(pre)
    ensures TrimStart(pre + s) == TrimStart(s)
    decreases |pre|
  {
    if |pre| > 0 {
      assert IsSpace((pre + s)[0]) by { assert (pre + s)[0] == pre[0]; }
      assert (pre + s)[1..] == pre[1..] + s;
      assert TrimStart(pre + s) == TrimStart(pre[1..] + s);
      TrimStartAfterSpaces(pre[1..], s);
    } else {
      assert pre + s == s;
    }
  }

  lemma {:induction false} TrimEndBeforeSpaces(s: string, post: string)
    requires AllSpace(post)
    ensures TrimEnd(s + post) == TrimEnd(s)
    decreases |post|
  {
    if |post| > 0 {
      var n := |post| - 1;
      assert IsSpace((s + post)[|s + post| - 1]) by { assert (s + post)[|s + post| - 1] == post[n]; }
      assert (s + post)[..|s + post| - 1] == s + post[..n];
      assert TrimEnd(s + post) == TrimEnd(s + post[..n]);
      TrimEndBeforeSpaces(s, post[..n]);
    } else {
      assert s + post == s;
    }
  }

  lemma {:induction false} TrimStartAppend(s: string, t: string)
    requires !AllSpace(s)
    ensures TrimStart(s + t) == TrimStart(s) + t
    decreases |s|
  {
    if IsSpace(s[0]) {
      assert (s + t)[1..] == s[1..] + t;
      assert !AllSpace(s[1..]) by {
        var i :| 0 <= i < |s| && !IsSpace(s[i]);
        assert s[1..][i - 1] == s[i];
      }
      TrimStartAppend(s[1..], t);
    }
  }

  lemma {:induction false} TrimEndPrepend(s: string, t: string)
    requires !AllSpace(t)
    ensures TrimEnd(s + t) == s + TrimEnd(t)
    decreases |t|
  {
    var n := |t| - 1;
    if IsSpace(t[n]) {
      assert (s + t)[..|s + t| - 1] == s + t[..n];
      assert !AllSpace(t[..n]) by {
        var i :| 0 <= i < |t| && !IsSpace(t[i]);
        assert i < n;
        assert t[..n][i] == t[i];
      }
      TrimEndPrepend(s, t[..n]);
    }
  }

  /** Surrounding a text with spaces does not change what `trim` returns. */
  lemma TrimIgnoresPadding(pre: string, s: string, post: string)
    requires AllSpace(pre) && AllSpace(post)
    ensures Trim(pre + s + post) == Trim(s)
  {
    assert pre + s + post == pre + (s + post);
    TrimStartAfterSpaces(pre, s + post);
    if AllSpace(s) {
      assert AllSpace(s + post);
    } else {
      TrimStartAppend(s, post);
      TrimEndBeforeSpaces(TrimStart(s), post);
    }
  }

  lemma {:induction false} LowerTrimStart(s: string)
    ensures Lower(TrimStart(s)) == TrimStart(Lower(s))
    decreases |s|
  {
    if |s| > 0 && IsSpace(s[0]) {
      assert Lower(s)[1..] == Lower(s[1..]);
      LowerTrimStart(s[1..]);
    }
  }

  lemma {:induction false} LowerTrimEnd(s: string)
    ensures Lower(TrimEnd(s)) == TrimEnd(Lower(s))
    decreases |s|
  {
    if |s| > 0 && IsSpace(s[|s| - 1]) {
      assert Lower(s)[..|s| - 1] == Lower(s[..|s| - 1]);
      LowerTrimEnd(s[..|s| - 1]);
    }
  }

  /** Lower-casing and trimming commute on ASCII text. */
  lemma LowerTrimCommute(s: string)
    ensures Lower(Trim(s)) == Trim(Lower(s))
  {
    LowerTrimStart(s);
    LowerTrimEnd(TrimStart(s));
  }

  /** `s.includes(part)`, scanning from the left. */
  predicate Contains(s: string, part: string)
    decreases |s|
  {
    if |part| > |s| then false
    else s[..|part|] == part || Contains(s[1..], part)
  }

  /** `part` occurs in `s` starting at index `i`. */
  predicate OccursAt(s: string, part: string, i: int) {
    0 <= i && i + |part| <= |s| && s[i..i + |part|] == part
  }

  /** The scan agrees with the definition of a substring occurrence. */
  lemma {:induction false} ContainsIffOccurs(s: string, part: string)
    ensures Contains(s, part) <==> exists i :: OccursAt(s, part, i)
    decreases |s|
  {
    if |part| > |s| {
    } else if s[..|part|] == part {
      assert OccursAt(s, part, 0);
    } else {
      ContainsIffOccurs(s[1..], part);
      if Contains(s[1..], part) {
        var i :| OccursAt(s[1..], part, i);
        assert s[i + 1..i + 1 + |part|] == s[1..][i..i + |part|];
        assert OccursAt(s, part, i + 1);
      } else {
        forall i | OccursAt(s, part, i)
          ensures false
        {
          assert i != 0;
          assert s[1..][i - 1..i - 1 + |part|] == s[i..i + |part|];
          assert OccursAt(s[1..], part, i - 1);
        }
      }
    }
  }

  predicate IsDigit(c: char) { '0' <= c <= '9' }

  function DigitChar(d: int): (c: char)
    requires 0 <= d < 10
    ensures IsDigit(c) && c as int - '0' as int == d
  {
    ('0' as int + d) as char
  }

  /** The decimal digits of `n`, without leading zeros. */
  function NatToString(n: nat): (r: string)
    ensures |r| > 0
    ensures forall i :: 0 <= i < |r| ==> IsDigit(r[i])
    ensures r[0] == '0' <==> n == 0
    ensures |r| == 1 <==> n < 10
    decreases n
  {
    if n < 10 then [DigitChar(n)] else NatToString(n / 10) + [DigitChar(n % 10)]
  }

  /** Reads a run of decimal digits back as a number. */
  function ParseNat(s: string): nat
    requires forall i :: 0 <= i < |s| ==> IsDigit(s[i])
  {
    if |s| == 0 then 0
    else
      var last := s[|s| - 1];
      assert IsDigit(last);
      ParseNat(s[..|s| - 1]) * 10 + (last as int - '0' as int)
  }

  lemma {:induction false} ParseNatToString(n: nat)
    ensures ParseNat(NatToString(n)) == n
    decreases n
  {
    if n >= 10 {
      var r := NatToString(n);
      assert r[..|r| - 1] == NatToString(n / 10);
      ParseNatToString(n / 10);
    }
  }

  /** A run of digits as JavaScript renders a number: at least one digit,
      and no leading zero unless the number is zero itself. */
  predicate IsCanonicalDigits(d: string) {
    && |d| > 0
    && (forall i :: 0 <= i < |d| ==> IsDigit(d[i]))
    && (d[0] == '0' ==> |d| == 1)
  }

  /** The digits of a numeral, after its sign. */
  function DigitPart(s: string): string {
    if |s| > 0 && s[0] == '-' then s[1..] else s
  }

  /** An integer numeral in the form `${i}` produces: canonical digits,
      with a minus sign only in front of a non-zero value. */
  predicate IsCanonicalNumeral(s: string) {
    && IsNumeral(s)
    && IsCanonicalDigits(DigitPart(s))
    && (|s| > 0 && s[0] == '-' ==> DigitPart(s) != "0")
  }

  /** The exact decimal of an integer: the template-literal rendering
      `${i}` of an integer-valued number of magnitude at most 2^53. */
  function IntToString(i: int): (r: string)
    ensures |r| > 0
    ensures r[0] == '-' <==> i < 0
    ensures IsCanonicalNumeral(r)
  {
    if i < 0 then "-" + NatToString(-i) else NatToString(i)
  }

  predicate IsNumeral(s: string) {
    if |s| > 0 && s[0] == '-' then forall i :: 1 <= i < |s| ==> IsDigit(s[i])
    else forall i :: 0 <= i < |s| ==> IsDigit(s[i])
  }

  function ParseInt(s: string): int
    requires IsNumeral(s)
  {
    if |s| > 0 && s[0] == '-' then -(ParseNat(s[1..]) as int) else ParseNat(s)
  }

  lemma IntToStringRoundTrip(i: int)
    ensures IsNumeral(IntToString(i)) && ParseInt(IntToString(i)) == i
  {
    var r := IntToString(i);
    if i < 0 {
      assert r[1..] == NatToString(-i);
      ParseNatToString(-i);
    } else {
      ParseNatToString(i);
    }
  }

  /** A canonical run of digits is at least ten exactly when it has more
      than one digit. */
  lemma {:induction false} CanonicalDigitsSize(d: string)
    requires IsCanonicalDigits(d)
    ensures ParseNat(d) < 10 <==> |d| == 1
    ensures d[0] != '0' ==> ParseNat(d) >= 1
    decreases |d|
  {
    if |d| > 1 {
      var front := d[..|d| - 1];
      assert front[0] == d[0];
      CanonicalDigitsSize(front);
    }
  }

  /** Distinct canonical runs of digits read as distinct numbers. */
  lemma {:induction false} CanonicalDigitsUnique(a: string, b: string)
    requires IsCanonicalDigits(a) && IsCanonicalDigits(b)
    requires ParseNat(a) == ParseNat(b)
    ensures a == b
    decreases |a|
  {
    CanonicalDigitsSize(a);
    CanonicalDigitsSize(b);
    if |a| == 1 {
      assert a == [a[0]] && b == [b[0]];
    } else {
      var a', b' := a[..|a| - 1], b[..|b| - 1];
      assert a'[0] == a[0] && b'[0] == b[0];
      assert ParseNat(a) == ParseNat(a') * 10 + (a[|a| - 1] as int - '0' as int);
      assert ParseNat(b) == ParseNat(b') * 10 + (b[|b| - 1] as int - '0' as int);
      CanonicalDigitsUnique(a', b');
      assert a == a' + [a[|a| - 1]] && b == b' + [b[|b| - 1]];
    }
  }

  /** Every integer has exactly one canonical numeral: two canonical
      numerals of the same value are the same string. */
  lemma CanonicalNumeralUnique(s: string, t: string)
    requires IsCanonicalNumeral(s) && IsCanonicalNumeral(t)
    requires ParseInt(s) == ParseInt(t)
    ensures s == t
  {
    CanonicalDigitsSize(DigitPart(s));
    CanonicalDigitsSize(DigitPart(t));
    CanonicalDigitsUnique(DigitPart(s), DigitPart(t));
    if s[0] == '-' {
      assert s == [s[0]] + DigitPart(s) && t == [t[0]] + DigitPart(t);
    }
  }
}

=== FILE: types.dfy ===
/**
  The records exchanged between the weather service and the dashboard.

  Temperatures, humidities, wind speeds, visibilities and pressures are
  integers: every value the service produces is an integer draw or an
  integer from a table. A forecast date is a day ordinal (days since an
  arbitrary epoch) rather than an ISO calendar string.
 */
module WeatherTypes {

  datatype Option<+T> = None | Some(value: T)

  /** One weather condition: an id, a category label (`main`), a
      free-text description and an icon code whose letter marks day or night. */
  datatype WeatherCondition = WeatherCondition(id: int, main: string, description: string, icon: string)

  datatype CurrentWeather = CurrentWeather(
    location: string,
    temperature: int,
    condition: WeatherCondition,
    humidity: int,
    windSpeed: int,
    feelsLike: int,
    visibility: int,
    pressure: int)

  datatype ForecastDay = ForecastDay(
    date: int,
    dayName: string,
    minTemp: int,
    maxTemp: int,
    condition: WeatherCondition,
    humidity: int,
    windSpeed: int)

  datatype WeatherData = WeatherData(current: CurrentWeather, forecast: seq<ForecastDay>)

  /** The seven display categories a condition is classified into. */
  datatype WeatherType = Sunny | Cloudy | Rainy | Snowy | Thunderstorm | Clear | Mist
}

=== FILE: weather_app.dfy ===
/**
  The dashboard's own decisions: the reading it shows before any search,
  the state change a lookup makes to (data, loading, error), and the city
  name a refresh searches for.
 */
module WeatherApp {

  import opened WeatherTypes
  import opened Text
  import opened WeatherService
  import opened WeatherUtils
  import opened WeatherIcon

  /** 2025-01-12 as a day ordinal (days since 1970-01-01). */
  const DefaultToday := 20100

  /** The reading shown before the first search. */
  const DefaultWeather := WeatherData(
    CurrentWeather("London, UK", 18, FewClouds, 65, 12, 20, 10, 1013),
    [ ForecastDay(DefaultToday, "Today", 12, 20, FewClouds, 65, 12),
      ForecastDay(DefaultToday + 1, "Mon", 15, 22, ClearSky, 58, 8),
      ForecastDay(DefaultToday + 2, "Tue", 10, 16, LightRain, 80, 15),
      ForecastDay(DefaultToday + 3, "Wed", 8, 14, LightSnow, 85, 10),
      ForecastDay(DefaultToday + 4, "Thu", 16, 24, ClearSky, 55, 6) ])

  /** The default reading has the shape of a generated one: five
      consecutive days, only the first labelled "Today", each with its
      low below its high. */
  lemma DefaultWeatherShape()
    ensures |DefaultWeather.forecast| == ForecastLength
    ensures forall i :: 0 <= i < |DefaultWeather.forecast| ==>
      && DefaultWeather.forecast[i].date == DefaultToday + i
      && (DefaultWeather.forecast[i].dayName == TodayLabel <==> i == 0)
      && DefaultWeather.forecast[i].minTemp <= DefaultWeather.forecast[i].maxTemp
  {
  }

  /** What an awaited lookup can produce: a value (possibly null) or a
      thrown value, which may or may not be an `Error` object. */
  datatype Thrown = ErrorObject(message: string) | OtherValue
  datatype Outcome = Returned(result: Option<WeatherData>) | Threw(thrown: Thrown)

  predicate Succeeded(outcome: Outcome) {
    outcome.Returned? && outcome.result.Some?
  }

  datatype AppState = AppState(weatherData: WeatherData, loading: bool, error: Option<string>)

  const InitialState := AppState(DefaultWeather, false, None)

  const CityNotFound := "City not found"
  const FetchFailed := "Failed to fetch weather data"

  /** Entering a lookup: the spinner starts and any old error is cleared. */
  function StartFetch(s: AppState): (t: AppState)
    ensures t.loading && t.error == None
    ensures t.weatherData == s.weatherData
  {
    s.(loading := true, error := None)
  }

  /** The message the error handler shows: an `Error`'s own message, a
      fixed text for anything else thrown. */
  function ErrorMessage(thrown: Thrown): string {
    match thrown
    case ErrorObject(message) => message
    case OtherValue => FetchFailed
  }

  /** Leaving a lookup. A result replaces the reading; a null result is
      turned into "City not found"; every failure sets the error and keeps
      the previous reading; the spinner always stops. */
  function SettleFetch(s: AppState, outcome: Outcome): (t: AppState)
    ensures !t.loading
    ensures Succeeded(outcome) ==> t.weatherData == outcome.result.value && t.error == s.error
    ensures !Succeeded(outcome) ==> t.weatherData == s.weatherData && t.error.Some?
    ensures outcome == Returned(None) ==> t.error == Some(CityNotFound)
    ensures outcome.Threw? ==> t.error == Some(ErrorMessage(outcome.thrown))
  {
    var thrown :=
      match outcome
      case Returned(None) => Some(ErrorObject(CityNotFound))
      case Returned(Some(_)) => None
      case Threw(t) => Some(t);
    match thrown
    case None => s.(weatherData := outcome.result.value, loading := false)
    case Some(t) => s.(error := Some(ErrorMessage(t)), loading := false)
  }

  /** One search for `city`, whose lookup ends in `outcome`. A blank name
      returns before touching the state or starting a lookup. */
  function FetchWeatherData(s: AppState, city: string, outcome: Outcome): (t: AppState)
    ensures IsBlank(city) ==> t == s
    ensures !IsBlank(city) ==> !t.loading
    ensures !IsBlank(city) ==> (t.error == None <==> Succeeded(outcome))
    ensures !IsBlank(city) && Succeeded(outcome) ==> t.weatherData == outcome.result.value
    ensures !IsBlank(city) && !Succeeded(outcome) ==> t.weatherData == s.weatherData
  {
    if IsBlank(city) then s else SettleFetch(StartFetch(s), outcome)
  }

  /** With the intended lookup (`SearchWeatherData`) behind it, a search for a non-blank name
      always shows a reading and never an error. */
  lemma SearchAlwaysShowsWeather(s: AppState, city: string, today: int, weekday: int -> string, draws: Draws)
    requires !IsBlank(city)
    requires ValidDraws(draws)
    ensures var r := SearchWeatherData(city, today, weekday, draws);
      var t := FetchWeatherData(s, city, Returned(r));
      && t.error == None && !t.loading
      && t.weatherData == r.value
      && |t.weatherData.forecast| == ForecastLength
  {
  }

  // ---------------------------------------------------------------------
  // Refresh

  /** `location.split(',')[0]`: the text before the first comma. */
  function RefreshName(location: string): (r: string)
    ensures |r| <= |location| && r == location[..|r|]
    ensures ',' !in r
    ensures |r| < |location| ==> location[|r|] == ','
    ensures ',' !in location ==> r == location
  {
    if |location| == 0 || location[0] == ',' then ""
    else [location[0]] + RefreshName(location[1..])
  }

  /** The refresh button searches again for the city part of the location
      on display. */
  function HandleRefresh(s: AppState, outcome: Outcome): (t: AppState)
    ensures var name := RefreshName(s.weatherData.current.location);
      && (IsBlank(name) ==> t == s)
      && (!IsBlank(name) ==> !t.loading && (t.error == None <==> Succeeded(outcome)))
      && (!IsBlank(name) && Succeeded(outcome) ==> t.weatherData == outcome.result.value)
      && (!IsBlank(name) && !Succeeded(outcome) ==> t.weatherData == s.weatherData)
  {
    FetchWeatherData(s, RefreshName(s.weatherData.current.location), outcome)
  }

  /** A canned display name "City, Region" whose city part normalises to
      its own key. */
  lemma CannedRefreshName(key: string, city: string, region: string)
    requires key in CannedCurrent
    requires CannedCurrent[key].location == city + ", " + region
    requires ',' !in city && Lower(city) == key
    requires |key| > 0 && !IsSpace(key[0]) && !IsSpace(key[|key| - 1])
    ensures NormalizeCity(RefreshName(CannedCurrent[key].location)) == key
  {
    var location := city + ", " + region;
    assert location[..|city|] == city;
    assert location[|city|] == ',';
    assert RefreshName(location) == city;
    TrimUnpadded(key);
  }

  /** Refreshing a canned reading searches for a name that normalises back
      to the same canned city. */
  lemma RefreshFindsCannedCity(key: string)
    requires key in CannedCurrent
    ensures NormalizeCity(RefreshName(CannedCurrent[key].location)) == key
  {
    CannedKeys();
    if key in {"london", "new york"} {
      RefreshNamesLondonNewYork(key);
    } else if key in {"tokyo", "sydney"} {
      RefreshNamesTokyoSydney(key);
    } else if key in {"paris", "moscow"} {
      RefreshNamesParisMoscow(key);
    } else {
      RefreshNamesGulfAndIndia(key);
    }
  }

  lemma RefreshNamesLondonNewYork(key: string)
    requires key in {"london", "new york"}
    ensures key in CannedCurrent && NormalizeCity(RefreshName(CannedCurrent[key].location)) == key
  {
    if key == "london" {
      assert Lower("London") == "london";
      CannedRefreshName(key, "London", "UK");
    } else {
      assert Lower("New York") == "new york";
      CannedRefreshName(key, "New York", "NY");
    }
  }

  lemma RefreshNamesTokyoSydney(key: string)
    requires key in {"tokyo", "sydney"}
    ensures key in CannedCurrent && NormalizeCity(RefreshName(CannedCurrent[key].location)) == key
  {
    if key == "tokyo" {
      assert Lower("Tokyo") == "tokyo";
      CannedRefreshName(key, "Tokyo", "Japan");
    } else {
      assert Lower("Sydney") == "sydney";
      CannedRefreshName(key, "Sydney", "Australia");
    }
  }

  lemma RefreshNamesParisMoscow(key: string)
    requires key in {"paris", "moscow"}
    ensures key in CannedCurrent && NormalizeCity(RefreshName(CannedCurrent[key].location)) == key
  {
    if key == "paris" {
      assert Lower("Paris") == "paris";
      CannedRefreshName(key, "Paris", "France");
    } else {
      assert Lower("Moscow") == "moscow";
      CannedRefreshName(key, "Moscow", "Russia");
    }
  }

  lemma RefreshNamesGulfAndIndia(key: string)
    requires key in {"dubai", "chennai", "mumbai"}
    ensures key in CannedCurrent && NormalizeCity(RefreshName(CannedCurrent[key].location)) == key
  {
    if key == "dubai" {
      assert Lower("Dubai") == "dubai";
      CannedRefreshName(key, "Dubai", "UAE");
    } else if key == "chennai" {
      assert Lower("Chennai") == "chennai";
      CannedRefreshName(key, "Chennai", "India");
    } else {
      assert Lower("Mumbai") == "mumbai";
      CannedRefreshName(key, "Mumbai", "India");
    }
  }

  /** A name whose normal form is not empty passes the blank check. */
  lemma NormalizedNonEmptyIsNotBlank(name: string)
    requires |NormalizeCity(name)| > 0
    ensures !IsBlank(name)
  {
    var lowered := Lower(name);
    assert NormalizeCity(name) == Trim(lowered);
    assert !AllSpace(lowered);
    var i :| 0 <= i < |lowered| && !IsSpace(lowered[i]);
    assert lowered[i] == LowerChar(name[i]);
    assert !AllSpace(name);
  }

  /** Refreshing while a canned city is shown brings back the same canned
      current reading with a fresh forecast. */
  lemma RefreshKeepsCannedReading(s: AppState, key: string, today: int, weekday: int -> string, draws: Draws)
    requires key in CannedCurrent && s.weatherData.current == CannedCurrent[key]
    requires ValidDraws(draws)
    ensures var name := RefreshName(s.weatherData.current.location);
      var t := HandleRefresh(s, Returned(SearchWeatherData(name, today, weekday, draws)));
      t.weatherData.current == CannedCurrent[key] && t.error == None
  {
    var name := RefreshName(s.weatherData.current.location);
    RefreshFindsCannedCity(key);
    CannedKeyNonEmpty(key);
    NormalizedNonEmptyIsNotBlank(name);
    CannedSearchShowsReading(s, name, key, today, weekday, draws);
  }

  lemma CannedKeyNonEmpty(key: string)
    requires key in CannedCurrent
    ensures |key| > 0
  {
    CannedKeys();
  }

  /** A search whose name normalises to a canned key shows that key's
      canned reading, with no error. */
  lemma CannedSearchShowsReading(s: AppState, name: string, key: string, today: int, weekday: int -> string, draws: Draws)
    requires NormalizeCity(name) == key && key in CannedCurrent && !IsBlank(name)
    requires ValidDraws(draws)
    ensures var t := FetchWeatherData(s, name, Returned(SearchWeatherData(name, today, weekday, draws)));
      t.weatherData.current == CannedCurrent[key] && t.error == None
  {
  }

  // ---------------------------------------------------------------------
  // Classifying the generated conditions

  /** An icon code of two digits and a `d` is a daytime code. */
  lemma DayCodeIsNotNight(code: string)
    requires |code| == 3 && IsDigit(code[0]) && IsDigit(code[1]) && code[2] == 'd'
    ensures !Contains(code, "n")
  {
    assert !Contains(code[1..][1..], "n");
  }

  /** Every condition the engine can generate carries a daytime icon code,
      so the icon chooser never shows the moon for generated weather. */
  lemma GeneratedConditionsAreDaytime(climate: Climate, c: WeatherCondition)
    requires c in ClimateData(climate).commonConditions
    ensures !IsNight(c) && GetIcon(c) != Moon
  {
    assert c.icon in {"01d", "02d", "03d", "04d", "09d", "10d", "11d", "13d", "50d"};
    DayCodeIsNotNight(c.icon);
  }

  /** A plain clear sky is sunny, while the desert's dust is not a
      recognised category and falls through to the fallback type. */
  lemma PoolTypeExamples()
    ensures GetWeatherType(ClearSky) == Sunny && GetIcon(ClearSky) == Sun
    ensures GetWeatherType(DustWhirls) == Clear && GetIcon(DustWhirls) == Sun
  {
    assert Lower("Clear") == "clear";
    assert Lower("clear sky") == "clear sky";
    assert Contains("clear sky", "clear") by { assert "clear sky"[..5] == "clear"; }
    assert !Contains("01d", "n") by { DayCodeIsNotNight("01d"); }
    assert Lower("Dust") == "dust";
  }
}

=== FILE: weather_icon.dfy ===
/**
  The choice of icon for a weather condition. Icons are the eight glyphs
  the dashboard draws; size and styling are left to the presentation.
 */
module WeatherIcon {

  import opened WeatherTypes
  import opened Text
  import opened WeatherUtils

  datatype Icon = Sun | Moon | Cloud | CloudSun | CloudRain | CloudSnow | Zap | CloudFog

  /** An icon code containing the letter `n` is a night-time code. */
  predicate IsNight(condition: WeatherCondition) {
    Contains(condition.icon, "n")
  }

  /** Picks the icon from the lower-cased category label. Clouds whose
      description contains "few" or "scattered" (compared case-sensitively)
      get the partly-sunny glyph by night as well as by day. */
  function GetIcon(condition: WeatherCondition): (r: Icon)
    ensures var main := Lower(condition.main);
      var partly := Contains(condition.description, "few") || Contains(condition.description, "scattered");
      && (r == Moon <==> main == "clear" && IsNight(condition))
      && (r == Sun <==> (main == "clear" && !IsNight(condition)) || !IsKnownMain(main))
      && (r == CloudSun <==> main == "clouds" && partly)
      && (r == Cloud <==> main == "clouds" && !partly)
      && (r == CloudRain <==> main == "rain" || main == "drizzle")
      && (r == CloudSnow <==> main == "snow")
      && (r == Zap <==> main == "thunderstorm")
      && (r == CloudFog <==> main == "mist" || main == "fog" || main == "haze")
  {
    var main := Lower(condition.main);
    if main == "clear" then (if IsNight(condition) then Moon else Sun)
    else if main == "clouds" then
      (if Contains(condition.description, "few") || Contains(condition.description, "scattered")
       then CloudSun else Cloud)
    else if main == "rain" || main == "drizzle" then CloudRain
    else if main == "snow" then CloudSnow
    else if main == "thunderstorm" then Zap
    else if main == "mist" || main == "fog" || main == "haze" then CloudFog
    else Sun
  }

  /** The icon and the background type never disagree about the weather:
      precipitation, snow, storms and fog pick matching icon and type, any
      cloud type shows a cloud glyph, and the remaining types a sun or moon. */
  lemma IconAgreesWithType(c: WeatherCondition)
    ensures GetWeatherType(c) == Rainy <==> GetIcon(c) == CloudRain
    ensures GetWeatherType(c) == Snowy <==> GetIcon(c) == CloudSnow
    ensures GetWeatherType(c) == Thunderstorm <==> GetIcon(c) == Zap
    ensures GetWeatherType(c) == Mist <==> GetIcon(c) == CloudFog
    ensures GetWeatherType(c) == Cloudy <==> GetIcon(c) in {Cloud, CloudSun}
    ensures GetWeatherType(c) in {Sunny, Clear} <==> GetIcon(c) in {Sun, Moon}
  {
  }

  /** A condition is animated exactly when its icon shows falling or
      striking weather: rain pulses, snow bounces, lightning pulses. */
  lemma AnimationMatchesIcon(c: WeatherCondition)
    ensures GetWeatherAnimation(GetWeatherType(c)) == "animate-pulse" <==> GetIcon(c) in {CloudRain, Zap}
    ensures GetWeatherAnimation(GetWeatherType(c)) == "animate-bounce" <==> GetIcon(c) == CloudSnow
    ensures GetWeatherAnimation(GetWeatherType(c)) == "" <==> GetIcon(c) !in {CloudRain, CloudSnow, Zap}
  {
    IconAgreesWithType(c);
    AnimationCases(GetWeatherType(c));
  }
}

=== FILE: weather_service.dfy ===
/**
  The mock weather engine: four climate profiles, the city-to-climate
  index, canned current readings for nine cities, and the two synthesisers
  that fill in a five-day forecast and the current readings of any other
  city.

  Every `Math.random()` of the engine is a draw supplied by the caller in
  a draws record (see the `Random` module). The current date is a day
  ordinal `today`; the weekday abbreviation of a day is the uninterpreted
  label `weekday(day)`.
 */
module WeatherService {

  import opened WeatherTypes
  import opened Text
  import opened Random

  datatype Climate = Tropical | Temperate | Cold | Desert

  /** An integer range `[lo, hi]` as the tables write it; draws land in `[lo, hi)`. */
  datatype Range = Range(lo: int, hi: int)

  datatype ClimateProfile = ClimateProfile(
    tempRange: Range,
    commonConditions: seq<WeatherCondition>,
    humidity: Range,
    windSpeed: Range)

  /** Every range is non-empty and there is a condition to pick. */
  predicate WellFormed(p: ClimateProfile) {
    && p.tempRange.lo < p.tempRange.hi
    && p.humidity.lo < p.humidity.hi
    && p.windSpeed.lo < p.windSpeed.hi
    && |p.commonConditions| > 0
  }

  const ClearSky := WeatherCondition(800, "Clear", "clear sky", "01d")
  const FewClouds := WeatherCondition(801, "Clouds", "few clouds", "02d")
  const ScatteredClouds := WeatherCondition(802, "Clouds", "scattered clouds", "03d")
  const BrokenClouds := WeatherCondition(803, "Clouds", "broken clouds", "04d")
  const LightRain := WeatherCondition(500, "Rain", "light rain", "10d")
  const ModerateRain := WeatherCondition(501, "Rain", "moderate rain", "10d")
  const StormWithLightRain := WeatherCondition(200, "Thunderstorm", "thunderstorm with light rain", "11d")
  const LightDrizzle := WeatherCondition(300, "Drizzle", "light intensity drizzle", "09d")
  const LightSnow := WeatherCondition(600, "Snow", "light snow", "13d")
  const Snow := WeatherCondition(601, "Snow", "snow", "13d")
  const HazeCondition := WeatherCondition(721, "Haze", "haze", "50d")
  const DustWhirls := WeatherCondition(731, "Dust", "sand/dust whirls", "50d")

  function ClimateData(climate: Climate): (p: ClimateProfile)
    ensures WellFormed(p)
  {
    match climate
    case Tropical =>
      ClimateProfile(Range(24, 38),
        [ClearSky, FewClouds, ScatteredClouds, LightRain, ModerateRain, StormWithLightRain],
        Range(60, 90), Range(5, 20))
    case Temperate =>
      ClimateProfile(Range(5, 25),
        [ClearSky, FewClouds, BrokenClouds, LightRain, LightDrizzle],
        Range(45, 75), Range(8, 25))
    case Cold =>
      ClimateProfile(Range(-15, 15),
        [ClearSky, BrokenClouds, LightSnow, Snow, LightRain],
        Range(65, 85), Range(10, 30))
    case Desert =>
      ClimateProfile(Range(15, 45),
        [ClearSky, FewClouds, HazeCondition, DustWhirls],
        Range(20, 50), Range(3, 15))
  }

  /** The city-to-climate index, written as the four groups of the table. */
  const TropicalCities: set<string> := {
    "chennai", "mumbai", "delhi", "bangalore", "kolkata", "hyderabad",
    "bangkok", "singapore", "kuala lumpur", "jakarta", "manila", "ho chi minh city",
    "miami", "honolulu", "rio de janeiro", "lagos", "cairo"}

  const TemperateCities: set<string> := {
    "london", "paris", "berlin", "amsterdam", "rome", "madrid",
    "new york", "chicago", "san francisco", "seattle", "toronto", "vancouver",
    "sydney", "melbourne", "tokyo", "seoul", "beijing"}

  const ColdCities: set<string> := {
    "moscow", "stockholm", "oslo", "helsinki", "copenhagen",
    "reykjavik", "montreal", "winnipeg", "anchorage", "murmansk"}

  const DesertCities: set<string> := {
    "dubai", "abu dhabi", "riyadh", "doha", "kuwait city",
    "phoenix", "las vegas", "tucson", "alice springs", "marrakech"}

  /** Every name the index knows. */
  function IndexedCities(): set<string> {
    TropicalCities + TemperateCities + ColdCities + DesertCities
  }

  /** `city.toLowerCase().trim()`. */
  function NormalizeCity(city: string): string {
    Trim(Lower(city))
  }

  /** The climate of a city: its normalised name looked up in the index,
      `Temperate` when the name is not there. */
  function ClassifyCity(city: string): Climate {
    ClimateOfKey(NormalizeCity(city))
  }

  /** `cityClimateMap[key] || 'temperate'`: the group holding the key,
      `Temperate` for a key in none of them. */
  function ClimateOfKey(key: string): Climate {
    if key in TropicalCities then Tropical
    else if key in TemperateCities then Temperate
    else if key in ColdCities then Cold
    else if key in DesertCities then Desert
    else Temperate
  }

  /** Classification sees through ASCII case and surrounding whitespace:
      a name padded with spaces, or lower-cased, lands in the same climate. */
  lemma ClassifyIgnoresCaseAndPadding(pre: string, city: string, post: string)
    requires AllSpace(pre) && AllSpace(post)
    ensures ClassifyCity(pre + city + post) == ClassifyCity(city)
    ensures ClassifyCity(Lower(city)) == ClassifyCity(city)
  {
    LowerAppend(pre + city, post);
    LowerAppend(pre, city);
    LowerKeepsSpace(pre);
    LowerKeepsSpace(post);
    TrimIgnoresPadding(pre, Lower(city), post);
    LowerIdempotent(city);
  }

  /** Normalising a key again changes nothing: a normal form is lower
      case and unpadded. */
  lemma NormalizeIdempotent(city: string)
    ensures NormalizeCity(NormalizeCity(city)) == NormalizeCity(city)
  {
    LowerTrimCommute(Lower(city));
    LowerIdempotent(city);
    TrimIdempotent(Lower(city));
  }

  /** A name already in normal form: lower case without padding. */
  lemma NormalizeLowerUnpadded(city: string)
    requires |city| > 0 && !IsSpace(city[0]) && !IsSpace(city[|city| - 1])
    requires forall i :: 0 <= i < |city| ==> !IsUpper(city[i])
    ensures NormalizeCity(city) == city
  {
    assert Lower(city) == city;
    TrimUnpadded(city);
  }

  /** The documented examples: every spelling of Chennai is tropical and an
      unlisted name falls back to temperate. */
  lemma ChennaiIsTropical()
    ensures ClassifyCity("chennai") == Tropical
    ensures ClassifyCity("Chennai") == Tropical
    ensures ClassifyCity(" CHENNAI ") == Tropical
  {
    ChennaiLower();
    ChennaiCapitalised();
    ChennaiPadded();
    ClassifiedAsChennai("chennai");
    ClassifiedAsChennai("Chennai");
    ClassifiedAsChennai(" CHENNAI ");
  }

  lemma ClassifiedAsChennai(city: string)
    requires NormalizeCity(city) == "chennai"
    ensures ClassifyCity(city) == Tropical
  {
    assert "chennai" in TropicalCities;
  }

  /** Any key missing from the index falls back to the temperate climate. */
  lemma UnindexedIsTemperate(key: string)
    requires key !in IndexedCities()
    ensures ClimateOfKey(key) == Temperate
  {
  }

  lemma AtlantisIsTemperate()
    ensures ClassifyCity("Atlantis") == Temperate
  {
    AtlantisNormalForm();
    AtlantisUnlisted();
  }

  lemma ChennaiLower()
    ensures NormalizeCity("chennai") == "chennai"
  {
    NormalizeLowerUnpadded("chennai");
  }

  lemma ChennaiCapitalised()
    ensures NormalizeCity("Chennai") == "chennai"
  {
    assert Lower("Chennai") == "chennai";
    TrimUnpadded("chennai");
  }

  lemma ChennaiPadded()
    ensures NormalizeCity(" CHENNAI ") == "chennai"
  {
    assert Lower(" CHENNAI ") == " " + "chennai" + " ";
    TrimIgnoresPadding(" ", "chennai", " ");
    ChennaiLower();
  }

  lemma AtlantisNormalForm()
    ensures NormalizeCity("Atlantis") == "atlantis"
  {
    assert Lower("Atlantis") == "atlantis";
    TrimUnpadded("atlantis");
  }

  lemma AtlantisUnlisted()
    ensures "atlantis" !in IndexedCities()
  {
    assert "atlantis" !in TropicalCities;
    assert "atlantis" !in TemperateCities;
    assert "atlantis" !in ColdCities + DesertCities by {
      assert "atlantis" !in ColdCities;
    }
  }

  /** No city is listed under two climates, so the order in which
      `ClimateOfKey` consults the groups does not matter. */
  lemma CityGroupsDisjoint()
    ensures TropicalCities !! TemperateCities && TropicalCities !! ColdCities
    ensures TropicalCities !! DesertCities && TemperateCities !! ColdCities
    ensures TemperateCities !! DesertCities && ColdCities !! DesertCities
  {
    TropicalDisjoint();
    TemperateDisjoint();
    ColdDesertDisjoint();
  }

  lemma TropicalDisjoint()
    ensures TropicalCities !! TemperateCities && TropicalCities !! ColdCities && TropicalCities !! DesertCities
  {
    TropicalTemperateDisjoint();
    TropicalColdDisjoint();
    TropicalDesertDisjoint();
  }

  lemma TropicalTemperateDisjoint() ensures TropicalCities !! TemperateCities {}
  lemma TropicalColdDisjoint() ensures TropicalCities !! ColdCities {}
  lemma TropicalDesertDisjoint() ensures TropicalCities !! DesertCities {}

  lemma TemperateDisjoint()
    ensures TemperateCities !! ColdCities && TemperateCities !! DesertCities
  {
    TemperateColdDisjoint();
    TemperateDesertDisjoint();
  }

  lemma TemperateColdDisjoint() ensures TemperateCities !! ColdCities {}
  lemma TemperateDesertDisjoint() ensures TemperateCities !! DesertCities {}

  lemma ColdDesertDisjoint()
    ensures ColdCities !! DesertCities
  {
  }

  // ---------------------------------------------------------------------
  // Random draws

  /** The five `Math.random()` results one forecast day consumes. */
  datatype DayDraws = DayDraws(condition: int, temp: int, variation: int, humidity: int, wind: int)

  predicate ValidDayDraws(d: DayDraws) {
    IsRandom(d.condition) && IsRandom(d.temp) && IsRandom(d.variation) && IsRandom(d.humidity) && IsRandom(d.wind)
  }

  /** The seven `Math.random()` results the current readings of an
      unlisted city consume. */
  datatype CurrentDraws = CurrentDraws(
    condition: int, temp: int, humidity: int, wind: int,
    feelsLike: int, visibility: int, pressure: int)

  predicate ValidCurrentDraws(d: CurrentDraws) {
    && IsRandom(d.condition) && IsRandom(d.temp) && IsRandom(d.humidity) && IsRandom(d.wind)
    && IsRandom(d.feelsLike) && IsRandom(d.visibility) && IsRandom(d.pressure)
  }

  const ForecastLength := 5
  const TodayLabel := "Today"

  predicate ValidForecastDraws(ds: seq<DayDraws>) {
    |ds| == ForecastLength && forall i :: 0 <= i < |ds| ==> ValidDayDraws(ds[i])
  }

  /** All draws of one lookup: the current readings (used only for an
      unlisted city) and the five forecast days. */
  datatype Draws = Draws(current: CurrentDraws, forecast: seq<DayDraws>)

  predicate ValidDraws(d: Draws) {
    ValidCurrentDraws(d.current) && ValidForecastDraws(d.forecast)
  }

  /** `Math.floor(Math.random() * (r.hi - r.lo)) + r.lo`: a value of the
      half-open range `[r.lo, r.hi)`. */
  function Within(k: int, r: Range): (v: int)
    requires IsRandom(k) && r.lo < r.hi
    ensures r.lo <= v < r.hi
  {
    Pick(k, r.hi - r.lo) + r.lo
  }

  /** Every value of a range can be drawn. */
  lemma WithinReaches(v: int, r: Range) returns (k: int)
    requires r.lo <= v < r.hi && r.hi - r.lo <= RandomScale
    ensures IsRandom(k) && Within(k, r) == v
  {
    k := PickReaches(v - r.lo, r.hi - r.lo);
  }

  // ---------------------------------------------------------------------
  // Forecast synthesis

  /** A forecast day lies within its climate's envelope. */
  predicate WithinClimate(p: ClimateProfile, f: ForecastDay) {
    && f.condition in p.commonConditions
    && p.tempRange.lo <= f.minTemp < f.maxTemp <= p.tempRange.hi
    && p.humidity.lo <= f.humidity < p.humidity.hi
    && p.windSpeed.lo <= f.windSpeed < p.windSpeed.hi
  }

  function Max(a: int, b: int): int { if a < b then b else a }
  function Min(a: int, b: int): int { if a < b then a else b }

  /** Day `i` of the forecast: a base temperature, a spread of 3 to 10
      degrees around it clamped to the climate's temperature range, and
      humidity and wind drawn from their ranges. */
  function ForecastEntry(p: ClimateProfile, today: int, i: nat, weekday: int -> string, d: DayDraws): (f: ForecastDay)
    requires WellFormed(p) && ValidDayDraws(d)
    ensures f.date == today + i
    ensures f.dayName == if i == 0 then TodayLabel else weekday(today + i)
    ensures WithinClimate(p, f)
    ensures var base := Within(d.temp, p.tempRange);
      var variation := Pick(d.variation, 8) + 3;
      && 3 <= variation <= 10
      && base - variation <= f.minTemp <= base < f.maxTemp <= base + variation
      && (f.minTemp == base - variation || f.minTemp == p.tempRange.lo)
      && (f.maxTemp == base + variation || f.maxTemp == p.tempRange.hi)
  {
    var baseTemp := Within(d.temp, p.tempRange);
    var tempVariation := Pick(d.variation, 8) + 3;
    ForecastDay(
      today + i,
      if i == 0 then TodayLabel else weekday(today + i),
      Max(baseTemp - tempVariation, p.tempRange.lo),
      Min(baseTemp + tempVariation, p.tempRange.hi),
      p.commonConditions[Pick(d.condition, |p.commonConditions|)],
      Within(d.humidity, p.humidity),
      Within(d.wind, p.windSpeed))
  }

  /** Five consecutive days starting today, each drawn independently from
      the climate's profile. */
  function GenerateForecastForToday(climate: Climate, today: int, weekday: int -> string, draws: seq<DayDraws>): (fs: seq<ForecastDay>)
    requires ValidForecastDraws(draws)
    ensures |fs| == ForecastLength
    ensures forall i :: 0 <= i < |fs| ==> fs[i].date == today + i
    ensures fs[0].dayName == TodayLabel
    ensures forall i :: 1 <= i < |fs| ==> fs[i].dayName == weekday(today + i)
    ensures forall i :: 0 <= i < |fs| ==> WithinClimate(ClimateData(climate), fs[i])
    ensures forall i :: 0 <= i < |fs| ==> fs[i].maxTemp - fs[i].minTemp <= 20
    ensures forall i :: 0 <= i < |fs| ==> fs[i] == ForecastEntry(ClimateData(climate), today, i, weekday, draws[i])
  {
    var p := ClimateData(climate);
    seq(ForecastLength, i requires 0 <= i < ForecastLength => ForecastEntry(p, today, i, weekday, draws[i]))
  }

  /** Dates advance by exactly one day, and "Today" labels the first entry
      only, provided no weekday abbreviation reads "Today". */
  lemma ForecastDaysInOrder(climate: Climate, today: int, weekday: int -> string, draws: seq<DayDraws>)
    requires ValidForecastDraws(draws)
    requires forall day :: weekday(day) != TodayLabel
    ensures var fs := GenerateForecastForToday(climate, today, weekday, draws);
      && (forall i :: 0 <= i < |fs| - 1 ==> fs[i + 1].date == fs[i].date + 1)
      && (forall i :: 0 <= i < |fs| ==> (fs[i].dayName == TodayLabel <==> i == 0))
  {
  }

  // ---------------------------------------------------------------------
  // Canned readings

  /** The hand-written current readings, keyed by normalised city name. */
  const CannedCurrent: map<string, CurrentWeather> := map[
    "london" := CurrentWeather("London, UK", 12, BrokenClouds, 68, 15, 10, 8, 1013),
    "new york" := CurrentWeather("New York, NY", 8, LightRain, 72, 18, 5, 6, 1008),
    "tokyo" := CurrentWeather("Tokyo, Japan", 18, ClearSky, 58, 12, 20, 15, 1020),
    "sydney" := CurrentWeather("Sydney, Australia", 22, FewClouds, 65, 14, 24, 12, 1015),
    "paris" := CurrentWeather("Paris, France", 15, LightDrizzle, 75, 10, 13, 7, 1012),
    "moscow" := CurrentWeather("Moscow, Russia", -8, LightSnow, 82, 20, -12, 3, 1005),
    "dubai" := CurrentWeather("Dubai, UAE", 35, ClearSky, 35, 8, 39, 20, 1018),
    "chennai" := CurrentWeather("Chennai, India", 32, FewClouds, 78, 12, 36, 8, 1010),
    "mumbai" := CurrentWeather("Mumbai, India", 29, LightRain, 85, 15, 33, 6, 1008)
  ]

  /** The climate each canned entry's load-time forecast was built with. */
  const CannedClimate: map<string, Climate> := map[
    "london" := Temperate, "new york" := Temperate, "tokyo" := Temperate,
    "sydney" := Temperate, "paris" := Temperate, "moscow" := Cold,
    "dubai" := Desert, "chennai" := Tropical, "mumbai" := Tropical
  ]

  /** Every canned city is in the climate index, under the climate its
      table entry was built with, so regenerating its forecast keeps it. */
  lemma CannedCitiesClassified()
    ensures CannedCurrent.Keys == CannedClimate.Keys
    ensures forall key :: key in CannedCurrent ==>
      key in IndexedCities() && ClimateOfKey(key) == CannedClimate[key]
  {
    CannedKeys();
    forall key | key in CannedCurrent
      ensures key in IndexedCities() && ClimateOfKey(key) == CannedClimate[key]
    {
      if key in {"london", "new york", "tokyo", "sydney", "paris"} {
        CannedTemperate(key);
      } else if key in {"chennai", "mumbai"} {
        CannedTropical(key);
      } else if key == "moscow" {
        CannedCold();
      } else {
        CannedDesert();
      }
    }
  }

  lemma CannedKeys()
    ensures CannedCurrent.Keys == CannedClimate.Keys
      == {"london", "new york", "tokyo", "sydney", "paris", "moscow", "dubai", "chennai", "mumbai"}
  {
  }

  lemma CannedTemperate(key: string)
    requires key in {"london", "new york", "tokyo", "sydney", "paris"}
    ensures key in TemperateCities && key !in TropicalCities && CannedClimate[key] == Temperate
  {
  }

  lemma CannedTropical(key: string)
    requires key in {"chennai", "mumbai"}
    ensures key in TropicalCities && CannedClimate[key] == Tropical
  {
  }

  lemma CannedCold()
    ensures "moscow" in ColdCities && "moscow" !in TropicalCities + TemperateCities
    ensures CannedClimate["moscow"] == Cold
  {
  }

  lemma CannedDesert()
    ensures "dubai" in DesertCities && "dubai" !in TropicalCities + TemperateCities + ColdCities
    ensures CannedClimate["dubai"] == Desert
  {
  }

  // ---------------------------------------------------------------------
  // Synthesis for unlisted cities and the lookup facade

  /** Readings for a city without a canned entry: the location is the input
      as typed; the temperature, condition, humidity and wind come from the
      city's climate; feels-like lies 3 below to 2 above the temperature;
      visibility and pressure ignore the climate. */
  function GenerateRealisticWeatherData(city: string, today: int, weekday: int -> string, draws: Draws): (w: WeatherData)
    requires ValidDraws(draws)
    ensures var p := ClimateData(ClassifyCity(city));
      && w.current.location == city
      && w.current.condition in p.commonConditions
      && p.tempRange.lo <= w.current.temperature < p.tempRange.hi
      && p.humidity.lo <= w.current.humidity < p.humidity.hi
      && p.windSpeed.lo <= w.current.windSpeed < p.windSpeed.hi
      && w.current.temperature - 3 <= w.current.feelsLike <= w.current.temperature + 2
      && 5 <= w.current.visibility <= 19
      && 990 <= w.current.pressure <= 1039
    ensures w.forecast == GenerateForecastForToday(ClassifyCity(city), today, weekday, draws.forecast)
  {
    var climate := ClassifyCity(city);
    var p := ClimateData(climate);
    var d := draws.current;
    var baseTemp := Within(d.temp, p.tempRange);
    WeatherData(
      CurrentWeather(
        city,
        baseTemp,
        p.commonConditions[Pick(d.condition, |p.commonConditions|)],
        Within(d.humidity, p.humidity),
        Within(d.wind, p.windSpeed),
        baseTemp + Pick(d.feelsLike, 6) - 3,
        Pick(d.visibility, 15) + 5,
        Pick(d.pressure, 50) + 990),
      GenerateForecastForToday(climate, today, weekday, draws.forecast))
  }

  /** The lookup facade, after its simulated delay. A canned city gets its
      canned current readings and a fresh forecast; any other city gets
      synthesised readings. The result is never empty. */
  function SearchWeatherData(city: string, today: int, weekday: int -> string, draws: Draws): (r: Option<WeatherData>)
    requires ValidDraws(draws)
    ensures r.Some?
    ensures var key := NormalizeCity(city);
      && (key in CannedCurrent ==> r.value.current == CannedCurrent[key])
      && (key !in CannedCurrent ==> r.value.current.location == city)
      && (key !in CannedCurrent ==> r.value == GenerateRealisticWeatherData(city, today, weekday, draws))
    ensures r.value.forecast == GenerateForecastForToday(ClassifyCity(city), today, weekday, draws.forecast)
  {
    var key := NormalizeCity(city);
    if key in CannedCurrent then
      var climate := ClimateOfKey(key);
      Some(WeatherData(CannedCurrent[key], GenerateForecastForToday(climate, today, weekday, draws.forecast)))
    else
      Some(GenerateRealisticWeatherData(city, today, weekday, draws))
  }

  /** Two lookups of a canned city agree on the current readings whatever
      the draws; a canned city's forecast is built from the climate its
      table entry names. */
  lemma CannedLookupStable(city: string, today: int, weekday: int -> string, d1: Draws, d2: Draws)
    requires NormalizeCity(city) in CannedCurrent
    requires ValidDraws(d1)
    requires ValidDraws(d2)
    ensures SearchWeatherData(city, today, weekday, d1).value.current
         == SearchWeatherData(city, today, weekday, d2).value.current
    ensures ClassifyCity(city) == CannedClimate[NormalizeCity(city)]
  {
    CannedCitiesClassified();
  }
}

=== FILE: weather_utils.dfy ===
/**
  The display helpers of the dashboard: classification of a condition into
  one of seven weather types, the background gradient and animation class
  of each type, and two small string formatters.
 */
module WeatherUtils {

  import opened WeatherTypes
  import opened Text

  /** Classifies a condition by its lower-cased category label; a "clear"
      label only counts as sunny when the description mentions "clear".
      The first matching rule wins; anything unrecognised is `Clear`. */
  function GetWeatherType(condition: WeatherCondition): (t: WeatherType)
    ensures var main := Lower(condition.main);
      var description := Lower(condition.description);
      && (t == Sunny <==> main == "clear" && Contains(description, "clear"))
      && (t == Cloudy <==> main == "clouds")
      && (t == Rainy <==> main == "rain" || main == "drizzle")
      && (t == Snowy <==> main == "snow")
      && (t == Thunderstorm <==> main == "thunderstorm")
      && (t == Mist <==> main == "mist" || main == "fog" || main == "haze")
      && (t == Clear <==> !IsKnownMain(main) || (main == "clear" && !Contains(description, "clear")))
  {
    var main := Lower(condition.main);
    var description := Lower(condition.description);
    if main == "clear" && Contains(description, "clear") then Sunny
    else if main == "clouds" then Cloudy
    else if main == "rain" || main == "drizzle" then Rainy
    else if main == "snow" then Snowy
    else if main == "thunderstorm" then Thunderstorm
    else if main == "mist" || main == "fog" || main == "haze" then Mist
    else Clear
  }

  /** The category labels that lead to a type other than the fallback. */
  predicate IsKnownMain(main: string) {
    main in {"clear", "clouds", "rain", "drizzle", "snow", "thunderstorm", "mist", "fog", "haze"}
  }

  /** The type depends on the category label and description only up to
      ASCII case: the id and icon code play no part. */
  lemma WeatherTypeIgnoresCase(c: WeatherCondition, d: WeatherCondition)
    requires Lower(c.main) == Lower(d.main) && Lower(c.description) == Lower(d.description)
    ensures GetWeatherType(c) == GetWeatherType(d)
  {
  }

  /** The default branch of the gradient switch; `Clear` shares it. */
  const DefaultBackground := "bg-gradient-to-br from-blue-400 via-blue-500 to-blue-600"

  /** The gradient of each weather type; `BackgroundType` reads the type
      back from it. */
  function GetBackgroundClasses(weatherType: WeatherType): (r: string)
    ensures BackgroundType(r) == Some(weatherType)
  {
    match weatherType
    case Sunny => "bg-gradient-to-br from-yellow-300 via-orange-400 to-pink-400"
    case Clear => DefaultBackground
    case Cloudy => "bg-gradient-to-br from-gray-400 via-gray-500 to-gray-600"
    case Rainy => "bg-gradient-to-br from-slate-600 via-slate-700 to-slate-800"
    case Snowy => "bg-gradient-to-br from-blue-100 via-blue-200 to-blue-300"
    case Thunderstorm => "bg-gradient-to-br from-gray-800 via-gray-900 to-black"
    case Mist => "bg-gradient-to-br from-gray-300 via-gray-400 to-gray-500"
  }

  /** Reads the weather type back from a gradient of this table, by the
      end of its closing "to-" colour: the shade, and for the two shared
      shades the last letter of the colour name. */
  function BackgroundType(classes: string): Option<WeatherType> {
    if |classes| < 5 then None
    else match (classes[|classes| - 3], classes[|classes| - 5])
      case ('4', _) => Some(Sunny)
      case ('6', 'e') => Some(Clear)
      case ('6', 'y') => Some(Cloudy)
      case ('8', _) => Some(Rainy)
      case ('3', _) => Some(Snowy)
      case ('a', _) => Some(Thunderstorm)
      case ('5', _) => Some(Mist)
      case _ => None
  }

  /** No two weather types share a background, and the one equal to the
      switch's default gradient is `Clear`. */
  lemma BackgroundsDistinct(a: WeatherType, b: WeatherType)
    ensures GetBackgroundClasses(a) == GetBackgroundClasses(b) ==> a == b
    ensures GetBackgroundClasses(a) == DefaultBackground <==> a == Clear
  {
  }

  function GetWeatherAnimation(weatherType: WeatherType): string {
    match weatherType
    case Rainy => "animate-pulse"
    case Snowy => "animate-bounce"
    case Thunderstorm => "animate-pulse"
    case _ => ""
  }

  /** Precipitation pulses, snow bounces, every other type is still. */
  lemma AnimationCases(t: WeatherType)
    ensures GetWeatherAnimation(t) == "animate-pulse" <==> t == Rainy || t == Thunderstorm
    ensures GetWeatherAnimation(t) == "animate-bounce" <==> t == Snowy
    ensures GetWeatherAnimation(t) == "" <==> t !in {Rainy, Snowy, Thunderstorm}
  {
  }

  /** 2^53. Up to this magnitude JavaScript prints an integer-valued
      number as its exact decimal; beyond it, it prints the shortest digits
      that read back to the same double, or exponent form from 10^21. */
  const MaxExactInteger := 0x20_0000_0000_0000

  /** `${humidity}%`: the decimal rendering followed by a percent sign. */
  function FormatHumidity(humidity: int): (r: string)
    requires -MaxExactInteger <= humidity <= MaxExactInteger
    ensures |r| >= 2 && r[|r| - 1] == '%'
    ensures IsNumeral(r[..|r| - 1]) && ParseInt(r[..|r| - 1]) == humidity
    ensures IsCanonicalNumeral(r[..|r| - 1])
  {
    var digits := IntToString(humidity);
    IntToStringRoundTrip(humidity);
    assert (digits + "%")[..|digits|] == digits;
    digits + "%"
  }

  /** The formatted humidity is the only canonical numeral of its value
      followed by a percent sign: no other string meets that description. */
  lemma FormatHumidityDetermined(humidity: int, s: string)
    requires -MaxExactInteger <= humidity <= MaxExactInteger
    requires |s| >= 2 && s[|s| - 1] == '%'
    requires IsCanonicalNumeral(s[..|s| - 1]) && ParseInt(s[..|s| - 1]) == humidity
    ensures s == FormatHumidity(humidity)
  {
    var r := FormatHumidity(humidity);
    CanonicalNumeralUnique(s[..|s| - 1], r[..|r| - 1]);
    assert s == s[..|s| - 1] + "%" && r == r[..|r| - 1] + "%";
  }

  /** `str.charAt(0).toUpperCase() + str.slice(1)` on ASCII text. */
  function CapitalizeFirst(str: string): (r: string)
    ensures |r| == |str|
    ensures |str| > 0 ==> r[1..] == str[1..]
    ensures |str| > 0 ==> !IsLower(r[0]) && LowerChar(r[0]) == LowerChar(str[0])
  {
    if |str| == 0 then "" else [UpperChar(str[0])] + str[1..]
  }

  lemma CapitalizeFirstIdempotent(str: string)
    ensures CapitalizeFirst(CapitalizeFirst(str)) == CapitalizeFirst(str)
  {
  }
}
